=== FILE: README.md ===
# Business idea generator — verified model of the page logic

The page (`script.js`) lets a user describe an industry, a budget and a tone, asks a
language model for a business idea (a narrative, brand names, captions and tags), and keeps
every generated idea in a **history** list, newest first. Any idea can be starred into a
**favourites** list and un-starred again. Both lists are saved in the browser's local storage
and reloaded when the page opens. Both lists can be searched, and "clear history" wipes them.
A chat panel sends follow-up questions to the model. Each prompt includes the idea picked in a
drop-down (the current idea or a history entry) and the last six messages of the chat.

The model has six modules:

- `Wrappers` — `Option`.
- `Text` — the JavaScript string built-ins the page relies on, as pure functions:
  `includes`/`indexOf`, `replace` with a string pattern (first occurrence only),
  `toLowerCase`, `trim`, `join`, `String(n)` for integers, and `parseInt`.
- `Ideas` — the idea record and list operations by id (`find`, `filter(f => f.id !== id)`).
  Also the search predicate, the fence stripping of the model's reply, and the parse step.
- `Repository` — the idea store (history, favourites, current idea) as a value, with one step
  function per handler. The consistency invariant ties them together:
  - ids are unique in each list;
  - a history entry's star flag holds exactly when its id is among the favourites;
  - every favourite's id is in the history.

  The lemmas prove that each toggle and each removal keeps this invariant, also over any
  sequence of toggles and removals. Recording a generated idea keeps it when the new id is
  not already in the store. Clearing the history restores the empty store, which is
  consistent.
- `Chat` — the transcript, the recording rule for messages, the six-message window, the
  prompt text and the context drop-down's change handler.
- `App` — class `IdeaApp` holds the page's five module-level variables plus the local storage
  (a map from key to saved list). Each event handler is a method that updates the fields in
  place, and its postcondition ties the new state to a step function of `Repository` or
  `Chat`, or states it outright.

`currentIdea` is modelled as the history position of the object it refers to. After a
generation it is the object just put at the head of the history, so a change made through
`currentIdea` is a change to that history entry.

## Model

| member | source | states |
|---|---|---|
| Text.Contains | script.js:1013 | `includes`: the pattern occurs at some position of the text; its properties are the lemmas below and `Text.IndexFrom` |
| Text.IndexFrom | script.js:1013 | the result is the first position at or after `from` where the pattern occurs; None exactly when it occurs nowhere there (the search behind `includes`) |
| Text.ContainsEmpty | script.js:1013 | every text includes the empty string, so an empty search term hides nothing |
| Text.ContainsSelf | script.js:1013 | every text includes itself |
| Text.ContainsBefore | script.js:1013 | a text that includes `t` still includes it with anything appended |
| Text.ContainsAfter | script.js:1013 | a text that includes `t` still includes it with anything prepended |
| Text.Lower | script.js:1008 | `toLowerCase` on ASCII letters, applied character by character; its properties are the four lemmas below |
| Text.LowerLength | script.js:1008 | lower-casing keeps the length |
| Text.LowerAppend | script.js:902 | lower-casing distributes over concatenation |
| Text.LowerIdempotent | script.js:1008 | lower-casing twice is lower-casing once |
| Text.LowerKeepsChar | script.js:902 | a character that lower-casing leaves alone (such as `"`) survives lower-casing of a text |
| Text.TrimStart | script.js:712-713 | the result is a suffix of the input that does not start with whitespace, and only whitespace was removed |
| Text.TrimEnd | script.js:712-713 | the result is a prefix of the input that does not end with whitespace, and only whitespace was removed |
| Text.Trim | script.js:1237 | `trim`: whitespace removed from both ends; `Text.TrimFacts` states what it leaves |
| Text.TrimFacts | script.js:712-713 | `trim` gives a text that neither starts nor ends with whitespace and sits in the input with only whitespace around it |
| Text.ReplaceFirst | script.js:756 | `replace` with a string pattern: only the first occurrence is replaced; `Ideas.StripJsonFence` and `Ideas.StripNoFence` state its effect on replies |
| Text.Join | script.js:1264-1266 | `join`: the parts with the separator between neighbours and none at the ends |
| Text.JoinHasPart | script.js:1264-1266 | every part appears whole inside the joined text |
| Text.JoinAvoids | script.js:902 | a character in neither the separator nor any part is not in the joined text |
| Text.DigitPrefix | script.js:1212 | the length of the longest leading run of digits in the radix, which is where `parseInt` stops reading |
| Text.IntToString | script.js:1183 | `String(n)` for an integer below 10^21 (every `Date.now()` id): a minus sign for a negative one, then the decimal digits; `Text.ParseIntOfIntToString` states it reads back |
| Text.NatToString | script.js:1183 | the decimal text of a natural number is non-empty, all digits, and reads back as that number |
| Text.ParseInt | script.js:1212 | `parseInt` of a text: leading whitespace skipped, then a sign and digits read; `Text.ParseIntOfIntToString` and the lemmas below state what it reads |
| Text.ParseSigned | script.js:1212 | an optional sign, then the magnitude; a minus sign negates it |
| Text.ParseMagnitude | script.js:1212 | a `0x` prefix switches to hexadecimal; the longest run of digits is read, and no digit at all gives nothing (`NaN`) |
| Text.DigitsParse | script.js:1212 | a decimal digit string is read in full and is never taken for a hexadecimal prefix |
| Text.MagnitudeOfDigits | script.js:1212 | a non-empty run of decimal digits is read whole as its decimal value |
| Text.TrimStartUnspaced | script.js:1212 | `parseInt` skips nothing in a text that starts with a non-space character |
| Text.ParseSignedDigits | script.js:1212 | an unsigned decimal digit string reads as its value |
| Text.ParseSignedNegative | script.js:1212 | a minus sign followed by decimal digits reads as the negated value of the digits |
| Text.ParseIntOfIntToString | script.js:1183 | `parseInt` of an integer's decimal text gives back the integer |
| Ideas.NewIdea | script.js:760-768 | the stored record: the id, the trimmed industry and budget, the tone or `default`, the parsed fields, the timestamp, not starred; `App.IdeaApp.GenerateIdea` states it is what gets recorded |
| Ideas.FirstIndex | script.js:851 | `find` by id: the first position holding the id; None exactly when no entry has it |
| Ideas.CountIdZero | script.js:836-837 | an id occurs zero times exactly when no entry has it |
| Ideas.CountIdAppend | script.js:845 | occurrences of an id in a concatenation add up |
| Ideas.RemoveId | script.js:839 | `filter(f => f.id !== id)`: no entry with the id is left, every other entry is kept in order, and the length drops by the number of removed entries |
| Ideas.RemoveAbsentId | script.js:858 | filtering out an id that is not there changes nothing |
| Ideas.RemoveIdAppend | script.js:858 | filtering distributes over concatenation |
| Ideas.RemoveIdKeepsOthers | script.js:992 | filtering out one id leaves the number of entries with any other id unchanged |
| Ideas.HasIdAppend | script.js:845 | an id is in a concatenation exactly when it is in one of the parts |
| Ideas.HasIdRemove | script.js:992 | after filtering out `id`, another id is present exactly when it was before |
| Ideas.RemoveIdUnique | script.js:992 | filtering keeps ids unique |
| Ideas.UniqueCountAtMostOne | script.js:836 | in a list with unique ids, each id occurs at most once |
| Ideas.SameIdsFirstIndex | script.js:853 | changing a star flag does not change where `find` lands |
| Ideas.SameIdsFacts | script.js:853 | changing star flags keeps which ids are present, their uniqueness and `find`'s answers |
| Ideas.SearchText | script.js:902 | the intended `data-search` text: lower-cased industry, narrative and space-joined tags, separated by spaces |
| Ideas.Shown | script.js:1008-1013 | the intended visibility: the search text includes the lower-cased term |
| Ideas.EmptyTermShowsAll | script.js:1013-1014 | an empty search box shows every card, under the page's search and the intended one |
| Ideas.ShownIgnoresTermCase | script.js:1008 | the page's search and the intended one are both case-insensitive in the term |
| Ideas.TagTermShown | script.js:902 | under the intended search, a term found inside one of the idea's tags, in any case, shows the card |
| Ideas.IndustryTermShown | script.js:902 | under the intended search, a term found inside the industry, in any case, shows the card |
| Ideas.Select | script.js:1011-1018 | the cards a visibility test keeps: in list order, each kept card exactly as often as in the list, every other card not at all |
| Ideas.Search | script.js:1007-1033 | the cards the intended search shows, as `Ideas.Select` states them |
| Ideas.UpToQuote | script.js:902 | the attribute value the browser reads is the text before the first `"` |
| Ideas.ShownAsWritten | script.js:1012-1013 | the page's visibility: the text before the first `"` of the search text includes the lower-cased term |
| Ideas.SearchAsWritten | script.js:1007-1033 | the cards the page's search shows, as `Ideas.Select` states them |
| Ideas.RenderedSearchText | script.js:1012 | the value `getAttribute('data-search')` returns: the search text up to its first `"`; `Ideas.ShownAsWrittenQuoteFree` and `Ideas.QuotedNarrativeRendered` state what it holds |
| Ideas.UpToQuoteWhole | script.js:902 | a text without `"` is read whole |
| Ideas.UpToQuotePrefix | script.js:902 | a `"`-free prefix is read and reading goes on into the rest |
| Ideas.LowerNoQuote | script.js:902 | lower-casing a text without `"` adds none |
| Ideas.ShownAsWrittenQuoteFree | script.js:902 | when no industry, narrative or tag holds `"`, the page's search and the intended one agree |
| Ideas.IndustryTermShownAsWritten | script.js:902 | under the page's search, a term found inside the industry, in any case, shows the card when the industry holds no `"` |
| Ideas.QuotedNarrativeRendered | script.js:902 | when the narrative starts with `"`, the attribute value holds only the industry and a space |
| Ideas.QuotedNarrativeHidesTags | script.js:902 | such a card is hidden from a search for one of its own tags, although the intended search shows it |
| Ideas.QuoteHidesTag | script.js:954 | a concrete idea whose tag `local` matches under the intended search and not as written |
| Ideas.StripFences | script.js:756 | the first json-tagged fence, then the first remaining fence, removed from the reply |
| Ideas.NoBacktickNoFence | script.js:756 | a text without backticks contains no fence |
| Ideas.StripJsonFence | script.js:756 | a reply wrapped in a json-tagged fence is unwrapped exactly |
| Ideas.StripNoFence | script.js:756 | a reply without backticks is left as it is |
| Ideas.ParseReply | script.js:755-757 | the parsed reply: none without reply text, none for an empty text after stripping the fences, else the parser's verdict |
| Ideas.ParseFencedReply | script.js:756-757 | a reply wrapped in a json-tagged fence is parsed from its body alone; an empty body fails |
| Ideas.ParsePlainReply | script.js:756-757 | a reply without backticks is parsed as it is; an empty reply fails |
| Repository.Record | script.js:760-771 | the store after a generation: the idea put at the head of the history and made current |
| Repository.RecordEffect | script.js:760-771 | recording puts the new idea at the head of the history, keeps the rest in order, and makes it current |
| Repository.ToggleCurrent | script.js:835-848 | for the current idea: present in favourites ⇒ every copy removed and the flag cleared; absent ⇒ the flag set and a copy appended; all else unchanged |
| Repository.ToggleHistory | script.js:849-861 | toggling a history entry keeps the current position valid and the history's length |
| Repository.ToggleHistoryEffect | script.js:849-861 | for a history id: the current position and the ids of the history never change; an unknown id ⇒ no change at all; otherwise only the first entry with the id has its flag flipped, and then a copy of it is appended or every favourite with the id removed |
| Repository.Toggle | script.js:834-869 | the dispatcher keeps the current position valid |
| Repository.RemoveFavorite | script.js:991-998 | no favourite with the id is left; a history flag is cleared exactly for the first entry with the id and for the current idea when it has the id |
| Repository.ConsistentAtMostOneFavorite | script.js:836-845 | in a consistent store an idea is never in the favourites twice |
| Repository.EmptyConsistent | script.js:9-11 | the empty store is consistent |
| Repository.RecordKeepsConsistent | script.js:760-771 | recording an unstarred idea with a fresh id keeps the store consistent |
| Repository.AppendFavoriteKeepsConsistent | script.js:844-845 | starring an entry and appending its copy keeps the store consistent |
| Repository.DropFavoriteKeepsConsistent | script.js:839-840 | un-starring an entry and filtering out its id keeps the store consistent |
| Repository.ToggleHistoryKeepsConsistent | script.js:849-861 | toggling a history entry keeps the store consistent |
| Repository.ToggleCurrentKeepsConsistent | script.js:835-848 | toggling the current idea keeps the store consistent |
| Repository.ToggleKeepsConsistent | script.js:834-869 | every toggle keeps the store consistent |
| Repository.RemoveFavoriteKeepsConsistent | script.js:991-998 | removing a favourite keeps the store consistent |
| Repository.Apply | script.js:834-869 | any toggle or removal keeps the current position valid |
| Repository.ApplyAll | script.js:834-869 | a sequence of toggles and removals keeps the current position valid |
| Repository.ApplyAllKeepsConsistent | script.js:834-869 | after any sequence of toggles and removals the store is consistent and no idea is in the favourites twice |
| Repository.FavoriteCountMatchesFlag | script.js:853-858 | in a consistent store an entry's id is in the favourites once when it is starred and not at all otherwise |
| Repository.ToggleCurrentTwice | script.js:835-848 | toggling twice a current idea that is unstarred and has no copy among the favourites restores the store exactly |
| Repository.ToggleHistoryTwice | script.js:849-861 | in a consistent store, toggling an unstarred history entry twice restores the store exactly |
| Repository.Clicks | script.js:849-861 | any number of clicks on a history star keeps the store well formed and the history's length |
| Repository.ClickParity | script.js:849-861 | after n clicks on a history star, `find` lands on the same entry, and its flag is the starting one flipped exactly when n is odd |
| Repository.ClicksKeepConsistent | script.js:849-861 | any number of clicks on a history star keeps the store consistent |
| Repository.ClickParityFavorites | script.js:849-861 | in a consistent store, after n clicks the id is among the favourites exactly when the starting flag, flipped when n is odd, is set |
| Chat.Recorded | script.js:1102 | a message is recorded when it is the user's or carries no element id |
| Chat.PlaceholderId | script.js:1246-1247 | the loading placeholder's message is never recorded in the transcript |
| Chat.SliceFrom | script.js:1263 | `slice(start)`: a negative start counts from the end and is clamped at the start of the list |
| Chat.RecentWindow | script.js:1263 | the window is the last min(6, n) messages of the transcript |
| Chat.WindowSlides | script.js:1263 | recording one more message drops the oldest windowed message when the window is full, and appends the new one |
| Chat.WindowEndsWithQuestion | script.js:1263 | the window a follow-up prompt uses ends with the question just asked |
| Chat.RenderMessage | script.js:1265 | one message as a `User: …` or `Assistant: …` line; `Chat.RenderAll` states the lines in order |
| Chat.RenderAll | script.js:1264-1265 | each message becomes one `User: …` / `Assistant: …` line, in order |
| Chat.RenderTranscript | script.js:1264-1266 | the lines joined with newlines; `Chat.RenderedWindowHasMessage` states that every message appears in it |
| Chat.RenderedWindowHasMessage | script.js:1264-1266 | every windowed message appears whole in the conversation block |
| Chat.ContextText | script.js:1257-1260 | the context line: the selected idea's narrative, industry and budget, and nothing when no idea is selected |
| Chat.PromptText | script.js:1268-1277 | the fixed template with the context, the conversation block and the question in their places |
| Chat.FollowUpFor | script.js:1256-1277 | the prompt's three parts: the context line, the rendered window of the transcript, the question |
| Chat.ReplyMessage | script.js:1286-1293 | the assistant's message: the reply text, or the fixed apology when the call failed |
| Chat.RecentMessageInPrompt | script.js:1263-1276 | each of the last six messages of the transcript appears, rendered as its `User:`/`Assistant:` line, in the prompt text |
| Chat.ConversationInPrompt | script.js:1268-1276 | whatever the conversation block contains, the prompt text contains |
| Chat.QuestionInPrompt | script.js:1268-1276 | the question appears in the prompt text |
| Chat.Snapshot | script.js:1205-1218 | the context copies the idea's industry, budget and narrative, under the given id |
| Chat.SelectContext | script.js:1196-1219 | an empty value clears the context; `current` snapshots the current idea if there is one; any other value selects a snapshot of the first history entry whose id `parseInt` reads from it, and nothing if there is none |
| Chat.OptionValues | script.js:1181-1187 | the drop-down lists one option per history entry, in order, whose value is the entry's id as text |
| Chat.ChoosingListedOption | script.js:1211-1218 | choosing the option listed for a history entry selects that entry |
| App.Saved | script.js:592-595 | saving overwrites both keys and leaves every other key alone |
| App.Loaded | script.js:598-608 | the list loaded for a key: the stored one when the key is present, else the list already in memory |
| App.LoadAfterSave | script.js:592-609 | loading what was saved gives back both lists |
| App.LoadAfterClear | script.js:1041-1043 | after clearing, loading finds neither key and keeps empty lists |
| App.FilterItems | script.js:1007-1033 | a card is displayed exactly when the page's search shows it, that is exactly when it is in `Ideas.SearchAsWritten` |
| App.IdeaApp.Load | script.js:598-609 | start-up: each list is the stored one when its key is present, else empty; no current idea, empty transcript, no context |
| App.IdeaApp.Save | script.js:592-595 | the storage afterwards is the saved map of both lists |
| App.IdeaApp.GenerateIdea | script.js:711-773 | missing industry or budget, or a failed reply or parse, changes nothing; otherwise the store becomes the old one with the new idea recorded, both lists are saved, and consistency is kept when the id is fresh |
| App.IdeaApp.ToggleFavorite | script.js:834-869 | the store becomes `Toggle` of the old one, both lists are saved, consistency is kept |
| App.IdeaApp.RemoveFavorite | script.js:991-1005 | the store becomes `RemoveFavorite` of the old one, both lists are saved, consistency is kept |
| App.IdeaApp.ClearHistory | script.js:1035-1056 | confirmed: both lists empty, no current idea, both keys removed, the store consistent; not confirmed: nothing changes |
| App.IdeaApp.FilterHistory | script.js:1007-1019 | each history card's visibility is the page's search, `ShownAsWritten`, for the term |
| App.IdeaApp.FilterFavorites | script.js:1021-1033 | each favourite card's visibility is the page's search, `ShownAsWritten`, for the term |
| App.IdeaApp.AddChatMessage | script.js:1078-1106 | the transcript gains the message exactly when it is the user's or carries no element id |
| App.IdeaApp.SelectChatContext | script.js:1196-1223 | the context becomes `SelectContext` of the value, the history and the current idea |
| App.IdeaApp.OnChatContextChange | script.js:1196-1223 | running both registered listeners gives the same context as running one |
| App.IdeaApp.GenerateChatResponse | script.js:1254-1295 | the prompt is the template filled with the selected context, the rendered last six messages of the transcript and the question; the reply, or the fixed error text, is recorded as the assistant's message |
| App.IdeaApp.SendChatMessage | script.js:1235-1251 | an input that is empty after trimming does nothing; otherwise the transcript gains the trimmed question and then the reply, and the prompt is built from the transcript that already ends with the question |
| App.IdeaApp.Ask | script.js:1241-1250 | the question is recorded, the loading placeholder is not, then the reply is; the prompt's window is taken after the question was recorded |

## Left out

- Rendering is not modelled: the history and favourites cards, stars, statistics, toasts, tab switching, the chat header, scrolling, and clipboard and export. Only the state these read is modelled.
- `formatAssistantResponse` is not modelled. It only changes how an assistant message is displayed; the transcript stores the raw text.
- Network calls are not modelled. The reply text of each call is a parameter: None stands for a failed request, a failed decoding, or (for the idea call) a reply with no text. The exact prompt sent by `generateIdea` is not modelled either; the chat prompt is.
- `JSON.parse` of the model's reply is a parameter (`parse`). `JSON.stringify`/`JSON.parse` around local storage are taken as exact inverses, so storage holds the lists themselves.
- `Date.now()` and `toLocaleString()` are parameters (`now`, `timestamp`). `Math.random` only picks tag colours and is not modelled.
- Each handler runs to completion before the next event. Interleavings of the `async` handlers (two generations in flight, a chat reply arriving after a clear) are not modelled.
- The placeholder bubble is never removed from the page, because the final assistant message is added without the placeholder's id. Only the transcript is modelled, and the placeholder is never recorded in it.
- Ideas.Parsed: holds the four fields the page uses. Extra or missing keys in the parsed reply are not modelled. Such keys could override `id`, `industry`, `budget` or `tone` through the object spread, or leave `undefined` fields.
- Text.Lower: only ASCII letters are lower-cased. `toLowerCase` also folds non-ASCII letters.
- Text.ParseInt: reads integers exactly. JavaScript's `parseInt` loses precision above 2^53, which no `Date.now()` id reaches.
- Ideas.UpToQuote: models how the browser ends an unescaped `data-search` attribute at the first `"`. HTML character references (`&amp;`, `&lt;`) in ideas are not decoded.
- App.IdeaApp.GenerateIdea: the display step after saving is not modelled. In the source it could throw on a malformed reply after the idea is already stored.
- Chat.OptionValues: lists only the option values. The `select.value` assignment at the end of `updateChatContextSelect` is not modelled, nor is the visibility of the "current idea" option.
- App.IdeaApp.ClearHistory: `clearHistory` does not reset `currentChatContext` or `chatHistory`; a context snapshot survives the clear.
- App.IdeaApp.GenerateIdea: `generateIdea` does not touch `currentChatContext`.
- The earlier copies of the handlers are not modelled. They are the functions declared at lines 45-589, among them `addChatMessage` at line 469, and `sendChatMessage` at line 1060 and `generateChatResponse` at line 1108. Later declarations of the same names replace them; `addChatMessage` at line 1078 is the live one and is modelled. The one function in lines 45-589 that is declared only once is `highlightCopyButton` at line 111, a clipboard helper left out together with the clipboard. The `change` listener at line 558 is not a function declaration: it is registered first, the one at line 1196 second, and `OnChatContextChange` models both.
- Ideas.Search: the intended search, not what the page does; the page's search is `Ideas.SearchAsWritten`, and `Ideas.ShownAsWrittenQuoteFree` states when the two agree.
- `server/index.js` (the proxy to the model service) is not part of this model.

## Findings

| source | as written | input that shows it | evidently intended | confidence | as-written member | corrected member |
|---|---|---|---|---|---|---|
| script.js:902, script.js:954, script.js:1012 | the lower-cased industry, narrative and tags are put into the `data-search` attribute without escaping, so the attribute value ends at the first `"` and the filter searches only the text before it | an idea with industry `cafe`, narrative `"Farm" fresh` and tag `local`: searching `local` hides it | the filter searches the whole lower-cased industry, narrative and tags | high by proof of the model; not executed | Ideas.QuoteHidesTag | Ideas.TagTermShown |

=== FILE: app.dfy ===
/**
 * The page's state and its event handlers. The five module-level variables of the script
 * (`ideaHistory`, `favoriteIdeas`, `currentIdea`, `chatHistory`, `currentChatContext`)
 * are the fields of one object, and `localStorage` is a map from key to saved list.
 * Every handler is a method that updates the fields in place; its postcondition ties the
 * new state to a step function of module Repository or Chat, or states it outright.
 */
module App {
  import opened Wrappers
  import opened Text
  import opened Ideas
  import opened Repository
  import opened Chat

  /** The storage keys of the two saved lists. */
  const HistoryKey: string := "businessIdeaHistory"
  const FavoritesKey: string := "businessIdeaFavorites"

  /** What pressing "generate" produced. */
  datatype GenerateOutcome =
    | MissingInput        // industry or budget empty after trimming: a toast, nothing else
    | GenerationFailed    // the call, the reply text or its parse failed: a toast, nothing else
    | Generated(idea: Idea)

  /** The storage after `saveToLocalStorage`: both keys overwritten, every other key kept. */
  function Saved(storage: map<string, seq<Idea>>, history: seq<Idea>, favorites: seq<Idea>): (s: map<string, seq<Idea>>)
    ensures HistoryKey in s && s[HistoryKey] == history
    ensures FavoritesKey in s && s[FavoritesKey] == favorites
    ensures forall key :: key != HistoryKey && key != FavoritesKey ==> (key in s <==> key in storage)
    ensures forall key :: key in storage && key != HistoryKey && key != FavoritesKey ==> s[key] == storage[key]
  {
    storage[HistoryKey := history][FavoritesKey := favorites]
  }

  /** What `loadFromLocalStorage` reads for one key: the saved list, or the given default if none. */
  function Loaded(storage: map<string, seq<Idea>>, key: string, default: seq<Idea>): seq<Idea> {
    if key in storage then storage[key] else default
  }

  /** Loading what was just saved gives back both lists, whatever else the storage held. */
  lemma LoadAfterSave(storage: map<string, seq<Idea>>, history: seq<Idea>, favorites: seq<Idea>, h0: seq<Idea>, f0: seq<Idea>)
    ensures Loaded(Saved(storage, history, favorites), HistoryKey, h0) == history
    ensures Loaded(Saved(storage, history, favorites), FavoritesKey, f0) == favorites
  {
  }

  /** After the two keys are removed, loading keeps the (empty) starting lists. */
  lemma LoadAfterClear(storage: map<string, seq<Idea>>)
    ensures Loaded(storage - {HistoryKey, FavoritesKey}, HistoryKey, []) == []
    ensures Loaded(storage - {HistoryKey, FavoritesKey}, FavoritesKey, []) == []
  {
  }

  /**
   * `filterHistory` / `filterFavorites`: for each card, in order, whether it stays visible
   * for the search box's text.
   */
  method FilterItems(items: seq<Idea>, term: string) returns (display: seq<bool>)
    ensures |display| == |items|
    ensures forall i :: 0 <= i < |items| ==> display[i] == ShownAsWritten(items[i], term)
    ensures forall i :: 0 <= i < |items| ==> (display[i] <==> items[i] in SearchAsWritten(items, term))
  {
    var searchTerm := Lower(term);
    display := [];
    var i := 0;
    while i < |items|
      invariant 0 <= i <= |items|
      invariant |display| == i
      invariant forall j :: 0 <= j < i ==> display[j] == ShownAsWritten(items[j], term)
    {
      display := display + [Contains(RenderedSearchText(items[i]), searchTerm)];
      i := i + 1;
    }
  }

  class IdeaApp {
    var history: seq<Idea>
    var favorites: seq<Idea>
    /** The history position of the object `currentIdea` refers to, or None for `null`. */
    var current: Option<nat>
    var transcript: seq<ChatMessage>
    var chatContext: Option<ChatContext>
    var storage: map<string, seq<Idea>>

    ghost predicate Valid()
      reads this
    {
      WellFormed(State())
    }

    /** The idea store as a value. */
    function State(): Repo
      reads this
    {
      Repo(history, favorites, current)
    }

    /** The record `currentIdea` refers to. */
    function CurrentIdea(): Option<Idea>
      reads this
      requires Valid()
    {
      match current
      case None => None
      case Some(k) => Some(history[k])
    }

    /**
     * Page start-up: the variables' initial values, then `loadFromLocalStorage`, which takes
     * each list from storage when its key is present and keeps the empty list otherwise.
     */
    constructor Load(stored: map<string, seq<Idea>>)
      ensures Valid()
      ensures history == Loaded(stored, HistoryKey, []) && favorites == Loaded(stored, FavoritesKey, [])
      ensures current == None && transcript == [] && chatContext == None && storage == stored
    {
      history := [];
      favorites := [];
      current := None;
      transcript := [];
      chatContext := None;
      storage := stored;
      new;
      if HistoryKey in stored {
        history := stored[HistoryKey];
      }
      if FavoritesKey in stored {
        favorites := stored[FavoritesKey];
      }
    }

    /** `saveToLocalStorage`. */
    method Save()
      modifies this`storage
      ensures storage == Saved(old(storage), history, favorites)
    {
      storage := storage[HistoryKey := history];
      storage := storage[FavoritesKey := favorites];
    }

    /**
     * `generateIdea`, given the form inputs, the text the call returned (None when the call
     * failed or returned no text), the JSON parser, and the clock readings for the id and the
     * timestamp. With both inputs present and a parsed reply, the new idea is prepended to the
     * history and becomes the current idea, and both lists are saved; otherwise nothing changes.
     */
    method GenerateIdea(industryInput: string, budgetInput: string, tone: string,
                        raw: Option<string>, parse: string -> Option<Parsed>,
                        now: int, timestamp: string) returns (outcome: GenerateOutcome)
      requires Valid()
      modifies this`history, this`current, this`storage
      ensures Valid()
      ensures Trim(industryInput) == "" || Trim(budgetInput) == "" ==>
        outcome == MissingInput && unchanged(this)
      ensures Trim(industryInput) != "" && Trim(budgetInput) != "" && ParseReply(raw, parse).None? ==>
        outcome == GenerationFailed && unchanged(this)
      ensures Trim(industryInput) != "" && Trim(budgetInput) != "" && ParseReply(raw, parse).Some? ==>
        && outcome == Generated(NewIdea(now, Trim(industryInput), Trim(budgetInput), tone,
                                        ParseReply(raw, parse).value, timestamp))
        && State() == Record(old(State()), outcome.idea)
        && storage == Saved(old(storage), history, favorites)
      ensures old(Consistent(State())) && !HasId(old(history), now) ==> Consistent(State())
    {
      var industry := Trim(industryInput);
      var budget := Trim(budgetInput);
      if industry == "" || budget == "" {
        return MissingInput;
      }
      var parsed := ParseReply(raw, parse);
      if parsed.None? {
        return GenerationFailed;
      }
      var idea := NewIdea(now, industry, budget, tone, parsed.value, timestamp);
      ghost var before := State();
      if Consistent(before) && !HasId(before.history, now) {
        RecordKeepsConsistent(before, idea);
      }
      history := [idea] + history;
      current := Some(0);
      assert State() == Record(before, idea);
      Save();
      outcome := Generated(idea);
    }

    /**
     * `toggleFavorite(type, id)`: toggles the current idea or a history entry (see
     * Repository.Toggle), then saves both lists.
     */
    method ToggleFavorite(target: Target, id: Option<int>)
      requires Valid()
      modifies this`history, this`favorites, this`storage
      ensures Valid()
      ensures State() == Toggle(old(State()), target, id)
      ensures storage == Saved(old(storage), history, favorites)
      ensures old(Consistent(State())) ==> Consistent(State())
    {
      ghost var before := State();
      if target == CurrentTarget && current.Some? {
        var k := current.value;
        var currentId := history[k].id;
        if FirstIndex(favorites, currentId).Some? {
          favorites := RemoveId(favorites, currentId);
          history := history[k := history[k].(isFavorite := false)];
        } else {
          history := history[k := history[k].(isFavorite := true)];
          favorites := favorites + [history[k]];
        }
      } else if id.Some? && id.value != 0 {
        var found := FirstIndex(history, id.value);
        if found.Some? {
          var k := found.value;
          history := history[k := history[k].(isFavorite := !history[k].isFavorite)];
          if history[k].isFavorite {
            favorites := favorites + [history[k]];
          } else {
            favorites := RemoveId(favorites, id.value);
          }
        }
      }
      Save();
      if Consistent(before) {
        ToggleKeepsConsistent(before, target, id);
      }
    }

    /** `removeFavorite(id)` (see Repository.RemoveFavorite), then both lists saved. */
    method RemoveFavorite(id: int)
      requires Valid()
      modifies this`history, this`favorites, this`storage
      ensures Valid()
      ensures State() == Repository.RemoveFavorite(old(State()), id)
      ensures storage == Saved(old(storage), history, favorites)
      ensures old(Consistent(State())) ==> Consistent(State())
    {
      ghost var before := State();
      favorites := RemoveId(favorites, id);
      var found := FirstIndex(history, id);
      if found.Some? {
        history := history[found.value := history[found.value].(isFavorite := false)];
      }
      if current.Some? && history[current.value].id == id {
        history := history[current.value := history[current.value].(isFavorite := false)];
      }
      Save();
      if Consistent(before) {
        RemoveFavoriteKeepsConsistent(before, id);
      }
    }

    /**
     * `clearHistory`: when the user confirms, both lists are emptied, there is no current
     * idea and both storage keys are removed; the chat transcript and the chat context are
     * left as they were.
     */
    method ClearHistory(confirmed: bool)
      requires Valid()
      modifies this`history, this`favorites, this`current, this`storage
      ensures Valid()
      ensures !confirmed ==> unchanged(this)
      ensures confirmed ==> history == [] && favorites == [] && current == None
      ensures confirmed ==> storage == old(storage) - {HistoryKey, FavoritesKey}
      ensures Consistent(State()) || !confirmed
    {
      if confirmed {
        history := [];
        favorites := [];
        current := None;
        storage := storage - {HistoryKey};
        storage := storage - {FavoritesKey};
        EmptyConsistent();
      }
    }

    /** `filterHistory`: which history cards stay visible. */
    method FilterHistory(term: string) returns (display: seq<bool>)
      ensures |display| == |history|
      ensures forall i :: 0 <= i < |history| ==> display[i] == ShownAsWritten(history[i], term)
    {
      display := FilterItems(history, term);
    }

    /** `filterFavorites`: which favourite cards stay visible. */
    method FilterFavorites(term: string) returns (display: seq<bool>)
      ensures |display| == |favorites|
      ensures forall i :: 0 <= i < |favorites| ==> display[i] == ShownAsWritten(favorites[i], term)
    {
      display := FilterItems(favorites, term);
    }

    // -------------------------------------------------------------------------
    // Chat

    /**
     * `addChatMessage(role, content, id)`: the transcript gains the message when it is the
     * user's or carries no element id; the display part is not modelled.
     */
    method AddChatMessage(role: Role, content: string, elementId: Option<string>)
      modifies this`transcript
      ensures Recorded(role, elementId) ==> transcript == old(transcript) + [ChatMessage(role, content)]
      ensures !Recorded(role, elementId) ==> transcript == old(transcript)
    {
      if role == User || elementId.None? || elementId.value == "" {
        transcript := transcript + [ChatMessage(role, content)];
      }
    }

    /** One `change` listener of the context drop-down. */
    method SelectChatContext(value: string)
      requires Valid()
      modifies this`chatContext
      ensures chatContext == SelectContext(value, history, CurrentIdea())
    {
      if value == "" {
        chatContext := None;
        return;
      }
      if value == "current" {
        chatContext := match current
          case None => None
          case Some(k) => Some(Snapshot(CurrentIdeaId, history[k]));
      } else {
        var n := ParseInt(value);
        var found := if n.Some? then FirstIndex(history, n.value) else None;
        chatContext := match found
          case None => None
          case Some(i) => Some(Snapshot(HistoryIdeaId(history[i].id), history[i]));
      }
    }

    /**
     * A `change` event: two identical listeners are registered and both run, in order; the
     * second sees the same inputs, so the result is that of one.
     */
    method OnChatContextChange(value: string)
      requires Valid()
      modifies this`chatContext
      ensures chatContext == SelectContext(value, history, CurrentIdea())
    {
      SelectChatContext(value);
      SelectChatContext(value);
    }

    /**
     * `generateChatResponse(message)`, given the reply text (None when the call or the
     * decoding threw): the prompt is built from the context and the last six recorded
     * messages, and the reply, or the error text, is recorded as the assistant's message.
     */
    method GenerateChatResponse(message: string, reply: Option<string>) returns (prompt: FollowUp)
      modifies this`transcript
      ensures prompt == FollowUpFor(chatContext, old(transcript), message)
      ensures transcript == old(transcript) + [ReplyMessage(reply)]
    {
      prompt := FollowUp(ContextText(chatContext), RenderTranscript(RecentWindow(transcript)), message);
      match reply {
        case Some(text) => AddChatMessage(Assistant, text, None);
        case None => AddChatMessage(Assistant, ErrorText, None);
      }
    }

    /**
     * `sendChatMessage`, given the input box's text, the clock reading for the placeholder's
     * id, and the reply: an input that is empty after trimming does nothing; otherwise the
     * question is recorded, the placeholder is shown but not recorded, and the reply follows.
     * The prompt's window therefore ends with the question (Chat.WindowEndsWithQuestion).
     */
    method SendChatMessage(input: string, now: int, reply: Option<string>) returns (prompt: Option<FollowUp>)
      modifies this`transcript
      ensures Trim(input) == "" ==> prompt.None? && transcript == old(transcript)
      ensures Trim(input) != "" ==>
        && transcript == old(transcript) + [ChatMessage(User, Trim(input)), ReplyMessage(reply)]
        && prompt == Some(FollowUpFor(chatContext, old(transcript) + [ChatMessage(User, Trim(input))], Trim(input)))
    {
      var message := Trim(input);
      if message == "" {
        return None;
      }
      var p := Ask(message, now, reply);
      prompt := Some(p);
    }

    /** The part of `sendChatMessage` after the empty-input check. */
    method Ask(message: string, now: int, reply: Option<string>) returns (prompt: FollowUp)
      modifies this`transcript
      ensures transcript == old(transcript) + [ChatMessage(User, message), ReplyMessage(reply)]
      ensures prompt == FollowUpFor(chatContext, old(transcript) + [ChatMessage(User, message)], message)
    {
      AddChatMessage(User, message, None);
      AddChatMessage(Assistant, WaitingText, Some(PlaceholderId(now)));
      prompt := GenerateChatResponse(message, reply);
    }
  }
}

=== FILE: chat.dfy ===
/**
 * The chat assistant's pure parts: which messages the transcript records, the window of
 * recent messages a follow-up prompt embeds, the prompt text itself, and the snapshot
 * of an idea that the context drop-down selects.
 */
module Chat {
  import opened Wrappers
  import opened Text
  import opened Ideas

  datatype Role = User | Assistant

  datatype ChatMessage = ChatMessage(role: Role, content: string)

  /** The placeholder shown while a reply is pending. */
  const WaitingText: string := "Waiting for a response..."

  /** The reply recorded when the call fails. */
  const ErrorText: string := "Sorry, I encountered an error. Please try again."

  /** The number of recent messages a follow-up prompt embeds (three exchanges). */
  const WindowSize: nat := 6

  /** A message is recorded when it comes from the user or carries no (truthy) element id. */
  predicate Recorded(role: Role, elementId: Option<string>) {
    role == User || elementId.None? || elementId.value == ""
  }

  /**
   * The element id of the loading placeholder: `loading-` and the clock reading. It is never
   * empty, so an assistant message carrying it is never recorded.
   */
  function PlaceholderId(now: int): (id: string)
    ensures !Recorded(Assistant, Some(id))
  {
    "loading-" + IntToString(now)
  }

  // ---------------------------------------------------------------------------
  // The recent-message window

  /** `s.slice(start)`: a negative start counts from the end and is clamped at 0. */
  function SliceFrom<T>(s: seq<T>, start: int): seq<T> {
    var from := if start < 0 then (if |s| + start < 0 then 0 else |s| + start)
                else (if start > |s| then |s| else start);
    s[from..]
  }

  /** `chatHistory.slice(-6)`: the last `min(6, |t|)` messages, in order. */
  function RecentWindow(t: seq<ChatMessage>): (w: seq<ChatMessage>)
    ensures |w| == if |t| < WindowSize then |t| else WindowSize
    ensures w == t[|t| - |w|..]
  {
    SliceFrom(t, -(WindowSize as int))
  }

  /**
   * Appending a message slides the window: it ends with the new message, and the oldest
   * message drops out once the window is full.
   */
  lemma WindowSlides(t: seq<ChatMessage>, m: ChatMessage)
    ensures var w := RecentWindow(t);
      RecentWindow(t + [m]) == (if |w| == WindowSize then w[1..] else w) + [m]
  {
    var w := RecentWindow(t);
    var w' := RecentWindow(t + [m]);
    if |w| == WindowSize {
      assert w' == (t + [m])[|t| + 1 - WindowSize..];
      assert w' == w[1..] + [m];
    } else {
      assert w == t;
      assert w' == t + [m];
    }
  }

  /** The window a follow-up prompt embeds ends with the question just recorded. */
  lemma WindowEndsWithQuestion(t: seq<ChatMessage>, m: ChatMessage)
    ensures RecentWindow(t + [m]) != [] && RecentWindow(t + [m])[|RecentWindow(t + [m])| - 1] == m
  {
    WindowSlides(t, m);
  }

  // ---------------------------------------------------------------------------
  // Prompt text

  function RenderMessage(m: ChatMessage): string {
    (if m.role == User then "User" else "Assistant") + ": " + m.content
  }

  function RenderAll(ms: seq<ChatMessage>): (r: seq<string>)
    ensures |r| == |ms|
    ensures forall i :: 0 <= i < |ms| ==> r[i] == RenderMessage(ms[i])
  {
    if ms == [] then [] else [RenderMessage(ms[0])] + RenderAll(ms[1..])
  }

  /** The previous-conversation block: one `User: …` / `Assistant: …` line per message. */
  function RenderTranscript(ms: seq<ChatMessage>): string {
    Join(RenderAll(ms), "\n")
  }

  /** Every message of the window appears, rendered, in the conversation block. */
  lemma RenderedWindowHasMessage(ms: seq<ChatMessage>, i: nat)
    requires i < |ms|
    ensures exists a, c :: RenderTranscript(ms) == a + RenderMessage(ms[i]) + c
  {
    JoinHasPart(RenderAll(ms), "\n", i);
  }

  /** What the prompt says about the selected idea; empty without a selection. */
  function ContextText(ctx: Option<ChatContext>): string {
    match ctx
    case None => ""
    case Some(c) => "Current business context: " + c.idea + ". Industry: " + c.industry + ". Budget: $" + c.budget + "."
  }

  /** The three parts a follow-up prompt fills into its fixed template. */
  datatype FollowUp = FollowUp(context: string, conversation: string, question: string)

  /** The fixed pieces of the follow-up template, between which its three parts go. */
  const Opening: string := "You are a business consultant assistant. The user is discussing a business idea.\n\n\t"
  const ConversationLabel: string := "\n\n\tPrevious conversation context:\n\t"
  const QuestionLabel: string := "\n\n\tUser's new question: "
  const Closing: string := "\n\n\tProvide a helpful, concise response with practical advice. If the question relates to the business idea context, focus your answer specifically on that idea."

  /** The text sent to the model for a follow-up. */
  function PromptText(p: FollowUp): string {
    Opening + p.context + ConversationLabel + p.conversation + QuestionLabel + p.question + Closing
  }

  /** The prompt for `question`, given the selected context and the transcript so far. */
  function FollowUpFor(ctx: Option<ChatContext>, t: seq<ChatMessage>, question: string): FollowUp {
    FollowUp(ContextText(ctx), RenderTranscript(RecentWindow(t)), question)
  }

  /** The assistant's message for a reply: its text, or the fixed error text when the call failed. */
  function ReplyMessage(reply: Option<string>): ChatMessage {
    ChatMessage(Assistant, if reply.Some? then reply.value else ErrorText)
  }

  /** Each of the last six messages of the transcript appears, rendered, in the prompt text. */
  lemma RecentMessageInPrompt(ctx: Option<ChatContext>, t: seq<ChatMessage>, question: string, i: nat)
    requires |t| - WindowSize <= i < |t|
    ensures Contains(PromptText(FollowUpFor(ctx, t, question)), RenderMessage(t[i]))
  {
    var w := RecentWindow(t);
    var j := i - (|t| - |w|);
    assert w[j] == t[i];
    var msg := RenderMessage(t[i]);
    RenderedWindowHasMessage(w, j);
    var a, c :| RenderTranscript(w) == a + msg + c;
    ContainsSelf(msg);
    ContainsAfter(a, msg, msg);
    ContainsBefore(a + msg, c, msg);
    ConversationInPrompt(FollowUpFor(ctx, t, question), msg);
  }

  /** Whatever the conversation block contains, the prompt text contains. */
  lemma ConversationInPrompt(p: FollowUp, s: string)
    requires Contains(p.conversation, s)
    ensures Contains(PromptText(p), s)
  {
    var head := Opening + p.context + ConversationLabel;
    ContainsAfter(head, p.conversation, s);
    ContainsBefore(head + p.conversation, QuestionLabel, s);
    ContainsBefore(head + p.conversation + QuestionLabel, p.question, s);
    ContainsBefore(head + p.conversation + QuestionLabel + p.question, Closing, s);
  }

  /** The question itself appears in the prompt text. */
  lemma QuestionInPrompt(p: FollowUp)
    ensures Contains(PromptText(p), p.question)
  {
    var head := Opening + p.context + ConversationLabel + p.conversation + QuestionLabel;
    ContainsSelf(p.question);
    ContainsAfter(head, p.question, p.question);
    ContainsBefore(head + p.question, Closing, p.question);
  }

  // ---------------------------------------------------------------------------
  // Chat context selection

  /** A snapshot taken from the current idea (`id: 'current'`) or from a history entry. */
  datatype ContextId = CurrentIdeaId | HistoryIdeaId(id: int)

  /** The idea a chat is about: copied fields, not a live link. */
  datatype ChatContext = ChatContext(id: ContextId, industry: string, budget: string, idea: string)

  function Snapshot(id: ContextId, x: Idea): ChatContext {
    ChatContext(id, x.industry, x.budget, x.idea)
  }

  /** `c` holds `x`'s industry, budget and narrative. */
  predicate SnapshotOf(c: ChatContext, x: Idea) {
    c.industry == x.industry && c.budget == x.budget && c.idea == x.idea
  }

  /**
   * The drop-down's change handler: an empty value clears the context; `current` takes a
   * snapshot of the current idea, if any; any other value is read with `parseInt` and
   * selects the first history entry with that id, if any.
   */
  function SelectContext(value: string, history: seq<Idea>, current: Option<Idea>): (r: Option<ChatContext>)
    ensures value == "" ==> r.None?
    ensures value == "current" ==>
      (r.Some? <==> current.Some?) &&
      (r.Some? ==> r.value.id == CurrentIdeaId && SnapshotOf(r.value, current.value))
    ensures value != "" && value != "current" ==>
      var n := ParseInt(value);
      (r.Some? <==> n.Some? && HasId(history, n.value)) &&
      (r.Some? ==> r.value.id == HistoryIdeaId(n.value) &&
                   SnapshotOf(r.value, history[FirstIndex(history, n.value).value]))
  {
    if value == "" then None
    else if value == "current" then
      match current
      case None => None
      case Some(x) => Some(Snapshot(CurrentIdeaId, x))
    else
      match ParseInt(value)
      case None => None
      case Some(n) =>
        match FirstIndex(history, n)
        case None => None
        case Some(i) => Some(Snapshot(HistoryIdeaId(history[i].id), history[i]))
  }

  /** The values of the drop-down's history options: each entry's id as text. */
  function OptionValues(history: seq<Idea>): (vs: seq<string>)
    ensures |vs| == |history|
    ensures forall i :: 0 <= i < |history| ==> vs[i] == IntToString(history[i].id)
  {
    if history == [] then [] else [IntToString(history[0].id)] + OptionValues(history[1..])
  }

  /**
   * Choosing the option listed for a history entry selects a snapshot of that entry
   * (the first with its id): the option's text parses back to the id.
   */
  lemma ChoosingListedOption(history: seq<Idea>, current: Option<Idea>, i: nat)
    requires i < |history| && FirstIndex(history, history[i].id) == Some(i)
    ensures SelectContext(OptionValues(history)[i], history, current) ==
            Some(Snapshot(HistoryIdeaId(history[i].id), history[i]))
  {
    var v := IntToString(history[i].id);
    ParseIntOfIntToString(history[i].id);
    assert v != "" && v != "current" by {
      assert v[0] == '-' || '0' <= v[0] <= '9';
    }
  }
}

=== FILE: ideas.dfy ===
/**
 * The idea record of the business-idea page and the pure operations on lists of ideas:
 * `find` and `filter` by id, the search text each history or favourites card carries,
 * and the clean-up applied to the model's reply before it is parsed into a record.
 */
module Ideas {
  import opened Wrappers
  import opened Text

  /** The four fields the model is asked to return, after `JSON.parse`. */
  datatype Parsed = Parsed(idea: string, names: seq<string>, captions: seq<string>, tags: seq<string>)

  /**
   * One generated idea: `id` is the `Date.now()` reading at creation, `timestamp` the
   * locale date text, `isFavorite` the only field changed after creation.
   */
  datatype Idea = Idea(
    id: int,
    industry: string,
    budget: string,
    tone: string,
    idea: string,
    names: seq<string>,
    captions: seq<string>,
    tags: seq<string>,
    timestamp: string,
    isFavorite: bool)

  /** The record built from the form inputs and the parsed reply, not yet a favourite. */
  function NewIdea(id: int, industry: string, budget: string, tone: string, p: Parsed, timestamp: string): Idea {
    Idea(id, industry, budget, if tone == "" then "default" else tone,
         p.idea, p.names, p.captions, p.tags, timestamp, false)
  }

  // ---------------------------------------------------------------------------
  // Lists of ideas, by id

  predicate HasId(xs: seq<Idea>, id: int) {
    exists i :: 0 <= i < |xs| && xs[i].id == id
  }

  /** No two entries share an id. */
  predicate UniqueIds(xs: seq<Idea>) {
    forall i, j :: 0 <= i < j < |xs| ==> xs[i].id != xs[j].id
  }

  /** The position of the element `xs.find(x => x.id === id)` returns: the first entry with that id. */
  function FirstIndex(xs: seq<Idea>, id: int): (r: Option<nat>)
    ensures r.Some? ==> r.value < |xs| && xs[r.value].id == id
    ensures r.Some? ==> forall j :: 0 <= j < r.value ==> xs[j].id != id
    ensures r.None? <==> !HasId(xs, id)
  {
    if xs == [] then None
    else if xs[0].id == id then Some(0)
    else match FirstIndex(xs[1..], id)
      case None => None
      case Some(i) => Some(i + 1)
  }

  /** The number of entries with the given id. */
  function CountId(xs: seq<Idea>, id: int): nat {
    if xs == [] then 0 else (if xs[0].id == id then 1 else 0) + CountId(xs[1..], id)
  }

  lemma {:induction false} CountIdZero(xs: seq<Idea>, id: int)
    ensures CountId(xs, id) == 0 <==> !HasId(xs, id)
  {
    if xs != [] {
      CountIdZero(xs[1..], id);
      if xs[0].id != id && HasId(xs, id) {
        var i :| 0 <= i < |xs| && xs[i].id == id;
        assert xs[1..][i - 1].id == id;
      }
    }
  }

  lemma {:induction false} CountIdAppend(xs: seq<Idea>, ys: seq<Idea>, id: int)
    ensures CountId(xs + ys, id) == CountId(xs, id) + CountId(ys, id)
  {
    if xs == [] {
      assert xs + ys == ys;
    } else {
      assert (xs + ys)[1..] == xs[1..] + ys;
      CountIdAppend(xs[1..], ys, id);
    }
  }

  /** Every element of `a` occurs in `b`, in the same relative order. */
  predicate IsSubsequence<T(==)>(a: seq<T>, b: seq<T>)
    decreases |b|
  {
    a == [] ||
    (b != [] && if a[0] == b[0] then IsSubsequence(a[1..], b[1..]) else IsSubsequence(a, b[1..]))
  }

  /**
   * `xs.filter(x => x.id !== id)`: every entry with that id dropped, every other entry
   * kept, in the original order.
   */
  function RemoveId(xs: seq<Idea>, id: int): (r: seq<Idea>)
    ensures !HasId(r, id)
    ensures forall x :: x in r <==> x in xs && x.id != id
    ensures |r| == |xs| - CountId(xs, id)
    ensures IsSubsequence(r, xs)
  {
    if xs == [] then []
    else if xs[0].id == id then RemoveId(xs[1..], id)
    else [xs[0]] + RemoveId(xs[1..], id)
  }

  /** Filtering out an id that is not there changes nothing. */
  lemma {:induction false} RemoveAbsentId(xs: seq<Idea>, id: int)
    requires !HasId(xs, id)
    ensures RemoveId(xs, id) == xs
  {
    if xs != [] {
      assert xs[0].id != id;
      RemoveAbsentId(xs[1..], id);
      assert xs == [xs[0]] + xs[1..];
    }
  }

  lemma {:induction false} RemoveIdAppend(xs: seq<Idea>, ys: seq<Idea>, id: int)
    ensures RemoveId(xs + ys, id) == RemoveId(xs, id) + RemoveId(ys, id)
  {
    if xs == [] {
      assert xs + ys == ys;
    } else {
      assert (xs + ys)[1..] == xs[1..] + ys;
      RemoveIdAppend(xs[1..], ys, id);
    }
  }

  /** Filtering leaves the other ids' entries as they were. */
  lemma {:induction false} RemoveIdKeepsOthers(xs: seq<Idea>, id: int, other: int)
    requires other != id
    ensures CountId(RemoveId(xs, id), other) == CountId(xs, other)
  {
    if xs != [] {
      RemoveIdKeepsOthers(xs[1..], id, other);
    }
  }

  lemma HasIdAppend(xs: seq<Idea>, ys: seq<Idea>, id: int)
    ensures HasId(xs + ys, id) <==> HasId(xs, id) || HasId(ys, id)
  {
    if HasId(ys, id) {
      var i :| 0 <= i < |ys| && ys[i].id == id;
      assert (xs + ys)[|xs| + i].id == id;
    }
    if HasId(xs, id) {
      var i :| 0 <= i < |xs| && xs[i].id == id;
      assert (xs + ys)[i] == xs[i];
    }
    if HasId(xs + ys, id) {
      var i :| 0 <= i < |xs + ys| && (xs + ys)[i].id == id;
      if i < |xs| { assert xs[i] == (xs + ys)[i]; } else { assert ys[i - |xs|] == (xs + ys)[i]; }
    }
  }

  /** After filtering out `id`, the other ids are present exactly as before. */
  lemma HasIdRemove(xs: seq<Idea>, id: int, other: int)
    ensures HasId(RemoveId(xs, id), other) <==> other != id && HasId(xs, other)
  {
    var r := RemoveId(xs, id);
    if HasId(r, other) {
      var i :| 0 <= i < |r| && r[i].id == other;
      assert r[i] in xs;
    }
    if other != id && HasId(xs, other) {
      var i :| 0 <= i < |xs| && xs[i].id == other;
      assert xs[i] in r;
    }
  }

  /** Filtering keeps ids unique. */
  lemma {:induction false} RemoveIdUnique(xs: seq<Idea>, id: int)
    requires UniqueIds(xs)
    ensures UniqueIds(RemoveId(xs, id))
  {
    if xs != [] {
      assert UniqueIds(xs[1..]);
      RemoveIdUnique(xs[1..], id);
      if xs[0].id != id {
        var r := RemoveId(xs[1..], id);
        assert !HasId(xs[1..], xs[0].id);
        HasIdRemove(xs[1..], id, xs[0].id);
        assert RemoveId(xs, id) == [xs[0]] + r;
      }
    }
  }

  /** With ids unique, an id occurs at most once. */
  lemma {:induction false} UniqueCountAtMostOne(xs: seq<Idea>, id: int)
    requires UniqueIds(xs)
    ensures CountId(xs, id) <= 1
  {
    if xs != [] {
      assert UniqueIds(xs[1..]);
      UniqueCountAtMostOne(xs[1..], id);
      if xs[0].id == id {
        assert !HasId(xs[1..], id);
        CountIdZero(xs[1..], id);
      }
    }
  }

  /** Two lists holding entries with the same ids, position by position. */
  predicate SameIds(a: seq<Idea>, b: seq<Idea>) {
    |a| == |b| && forall i :: 0 <= i < |a| ==> a[i].id == b[i].id
  }

  lemma {:induction false} SameIdsFirstIndex(a: seq<Idea>, b: seq<Idea>, id: int)
    requires SameIds(a, b)
    ensures FirstIndex(a, id) == FirstIndex(b, id)
  {
    if a != [] {
      SameIdsFirstIndex(a[1..], b[1..], id);
    }
  }

  lemma SameIdsFacts(a: seq<Idea>, b: seq<Idea>)
    requires SameIds(a, b)
    ensures forall id :: HasId(a, id) <==> HasId(b, id)
    ensures UniqueIds(a) <==> UniqueIds(b)
    ensures forall id :: FirstIndex(a, id) == FirstIndex(b, id)
  {
    forall id ensures HasId(a, id) <==> HasId(b, id) {
      if HasId(a, id) { var i :| 0 <= i < |a| && a[i].id == id; assert b[i].id == id; }
      if HasId(b, id) { var i :| 0 <= i < |b| && b[i].id == id; assert a[i].id == id; }
    }
    forall id ensures FirstIndex(a, id) == FirstIndex(b, id) {
    }
  }

  // ---------------------------------------------------------------------------
  // Search (history and favourites cards)

  /**
   * The text a card is searched by: lower-cased industry, narrative and space-joined tags,
   * separated by spaces.
   */
  function SearchText(x: Idea): string {
    Lower(x.industry) + " " + Lower(x.idea) + " " + Lower(Join(x.tags, " "))
  }

  /** A card is shown when its search text includes the lower-cased search term. */
  predicate Shown(x: Idea, term: string) {
    Contains(SearchText(x), Lower(term))
  }

  /** An empty search term shows every card, under the intended search and the page's. */
  lemma EmptyTermShowsAll(x: Idea)
    ensures Shown(x, "")
    ensures ShownAsWritten(x, "")
  {
    ContainsEmpty(SearchText(x));
    ContainsEmpty(RenderedSearchText(x));
  }

  /** Both searches ignore the case of the term. */
  lemma ShownIgnoresTermCase(x: Idea, term: string)
    ensures Shown(x, term) <==> Shown(x, Lower(term))
    ensures ShownAsWritten(x, term) <==> ShownAsWritten(x, Lower(term))
  {
    LowerIdempotent(term);
  }

  /** A term found, case-insensitively, inside one of an idea's tags shows that idea. */
  lemma TagTermShown(x: Idea, term: string, k: nat)
    requires k < |x.tags|
    requires Contains(Lower(x.tags[k]), Lower(term))
    ensures Shown(x, term)
  {
    var t := Lower(term);
    JoinHasPart(x.tags, " ", k);
    var a, c :| Join(x.tags, " ") == a + x.tags[k] + c;
    LowerAppend(a + x.tags[k], c);
    LowerAppend(a, x.tags[k]);
    ContainsAfter(Lower(a), Lower(x.tags[k]), t);
    ContainsBefore(Lower(a) + Lower(x.tags[k]), Lower(c), t);
    ContainsAfter(Lower(x.industry) + " " + Lower(x.idea) + " ", Lower(Join(x.tags, " ")), t);
  }

  /** A term found inside the industry shows the idea. */
  lemma IndustryTermShown(x: Idea, term: string)
    requires Contains(Lower(x.industry), Lower(term))
    ensures Shown(x, term)
  {
    var t := Lower(term);
    var i := Lower(x.industry);
    ContainsBefore(i, " ", t);
    ContainsBefore(i + " ", Lower(x.idea), t);
    ContainsBefore(i + " " + Lower(x.idea), " ", t);
    ContainsBefore(i + " " + Lower(x.idea) + " ", Lower(Join(x.tags, " ")), t);
  }

  /**
   * The ideas of `xs` that `keep` accepts, in list order: each accepted idea as often as
   * it occurs in `xs`, every other idea not at all.
   */
  function Select(xs: seq<Idea>, keep: Idea -> bool): (r: seq<Idea>)
    ensures IsSubsequence(r, xs)
    ensures forall x :: multiset(r)[x] == if keep(x) then multiset(xs)[x] else 0
    ensures forall x :: x in r <==> x in xs && keep(x)
  {
    if xs == [] then []
    else
      var rest := Select(xs[1..], keep);
      assert multiset(xs) == multiset{xs[0]} + multiset(xs[1..]) by {
        assert xs == [xs[0]] + xs[1..];
      }
      if keep(xs[0]) then [xs[0]] + rest else rest
  }

  /** The cards the intended search leaves visible, in list order. */
  function Search(xs: seq<Idea>, term: string): seq<Idea> {
    Select(xs, x => Shown(x, term))
  }

  /**
   * As written, the search text is interpolated unescaped into a double-quoted
   * `data-search` attribute, so the browser keeps only what precedes the first `"`.
   */
  function UpToQuote(s: string): (r: string)
    ensures |r| <= |s| && r == s[..|r|]
    ensures '"' !in r
    ensures |r| < |s| ==> s[|r|] == '"'
  {
    if s == [] || s[0] == '"' then [] else [s[0]] + UpToQuote(s[1..])
  }

  function RenderedSearchText(x: Idea): string {
    UpToQuote(SearchText(x))
  }

  predicate ShownAsWritten(x: Idea, term: string) {
    Contains(RenderedSearchText(x), Lower(term))
  }

  /** The cards the page's search leaves visible, in list order. */
  function SearchAsWritten(xs: seq<Idea>, term: string): seq<Idea> {
    Select(xs, x => ShownAsWritten(x, term))
  }

  /** Without a `"` in its fields, the rendered attribute is the whole search text. */
  lemma {:induction false} UpToQuoteWhole(s: string)
    requires '"' !in s
    ensures UpToQuote(s) == s
  {
    if s != [] {
      assert '"' !in s[1..];
      UpToQuoteWhole(s[1..]);
    }
  }

  lemma {:induction false} UpToQuotePrefix(p: string, q: string)
    requires '"' !in p
    ensures UpToQuote(p + q) == p + UpToQuote(q)
  {
    if p == [] {
      assert p + q == q;
    } else {
      assert (p + q)[1..] == p[1..] + q;
      assert '"' !in p[1..];
      UpToQuotePrefix(p[1..], q);
    }
  }

  lemma {:induction false} LowerNoQuote(s: string)
    requires '"' !in s
    ensures '"' !in Lower(s)
  {
    if s != [] {
      assert '"' !in s[1..];
      LowerNoQuote(s[1..]);
    }
  }

  /** When no field of the idea holds `"`, the page's search and the intended one agree. */
  lemma ShownAsWrittenQuoteFree(x: Idea, term: string)
    requires '"' !in x.industry && '"' !in x.idea
    requires forall i :: 0 <= i < |x.tags| ==> '"' !in x.tags[i]
    ensures ShownAsWritten(x, term) == Shown(x, term)
  {
    JoinAvoids(x.tags, " ", '"');
    LowerNoQuote(x.industry);
    LowerNoQuote(x.idea);
    LowerNoQuote(Join(x.tags, " "));
    assert '"' !in SearchText(x);
    UpToQuoteWhole(SearchText(x));
  }

  /**
   * The page's search shows an idea for a term found inside its industry, provided the
   * industry holds no `"`: the industry comes first in the attribute, so it is read whole.
   */
  lemma IndustryTermShownAsWritten(x: Idea, term: string)
    requires '"' !in x.industry
    requires Contains(Lower(x.industry), Lower(term))
    ensures ShownAsWritten(x, term)
  {
    var i := Lower(x.industry);
    var rest := " " + Lower(x.idea) + " " + Lower(Join(x.tags, " "));
    LowerNoQuote(x.industry);
    assert SearchText(x) == i + rest;
    UpToQuotePrefix(i, rest);
    ContainsBefore(i, UpToQuote(rest), Lower(term));
  }

  /** When the narrative opens with a quotation, the attribute as written holds only the industry. */
  lemma QuotedNarrativeRendered(x: Idea)
    requires '"' !in x.industry && x.idea != [] && x.idea[0] == '"'
    ensures RenderedSearchText(x) == Lower(x.industry) + " "
  {
    var p := Lower(x.industry) + " ";
    LowerNoQuote(x.industry);
    assert '"' !in p;
    var lowIdea := Lower(x.idea);
    assert lowIdea[0] == '"';
    var q := lowIdea + " " + Lower(Join(x.tags, " "));
    assert q[0] == '"';
    assert UpToQuote(q) == [];
    assert SearchText(x) == p + q;
    UpToQuotePrefix(p, q);
    assert p + [] == p;
  }

  /**
   * When the narrative opens with a quotation, the search as written sees only the
   * industry: a term found in a tag but not in the industry is hidden.
   */
  lemma QuotedNarrativeHidesTags(x: Idea, term: string, k: nat)
    requires '"' !in x.industry && x.idea != [] && x.idea[0] == '"'
    requires k < |x.tags| && Contains(Lower(x.tags[k]), Lower(term))
    requires !Contains(Lower(x.industry) + " ", Lower(term))
    ensures Shown(x, term) && !ShownAsWritten(x, term)
  {
    TagTermShown(x, term, k);
    QuotedNarrativeRendered(x);
  }

  /** A concrete card: industry `cafe`, narrative `"Farm" fresh`, tag `local`, term `local`. */
  lemma QuoteHidesTag()
    ensures var x := Idea(1, "cafe", "5000", "default", "\"Farm\" fresh", [], [], ["local"], "", false);
            Shown(x, "local") && !ShownAsWritten(x, "local")
  {
    var x := Idea(1, "cafe", "5000", "default", "\"Farm\" fresh", [], [], ["local"], "", false);
    var t := Lower("local");
    assert t == "local";
    assert Contains(Lower(x.tags[0]), t) by { assert OccursAt(t, t, 0); }
    var p := Lower(x.industry) + " ";
    assert p == "cafe ";
    assert !Contains(p, t) by {
      assert !OccursAt(p, t, 0) by { assert p[0..5][0] != t[0]; }
    }
    QuotedNarrativeHidesTags(x, "local", 0);
  }

  // ---------------------------------------------------------------------------
  // Reply clean-up

  /**
   * The fence stripping applied to the model's text: the first "```json" removed, then
   * the first remaining "```" removed.
   */
  function StripFences(text: string): string {
    ReplaceFirst(ReplaceFirst(text, "```json", ""), "```", "")
  }

  predicate NoBacktick(s: string) {
    forall i :: 0 <= i < |s| ==> s[i] != '`'
  }

  lemma NoBacktickNoFence(s: string, pat: string)
    requires NoBacktick(s) && |pat| > 0 && pat[0] == '`'
    ensures IndexOf(s, pat).None?
  {
    forall j: nat | j <= |s| ensures !OccursAt(s, pat, j) {
      if j + |pat| <= |s| { assert s[j..j + |pat|][0] == s[j]; }
    }
  }

  /** A ```json fenced block with a body free of backticks strips to the body. */
  lemma StripJsonFence(body: string)
    requires NoBacktick(body)
    ensures StripFences("```json" + body + "```") == body
  {
    var s := "```json" + body + "```";
    assert OccursAt(s, "```json", 0);
    assert ReplaceFirst(s, "```json", "") == body + "```";
    var t := body + "```";
    NoBacktickNoFence(body, "```");
    assert OccursAt(t, "```", |body|);
    assert IndexOf(t, "```") == Some(|body|);
    assert t[..|body|] == body;
  }

  /** Text without backticks passes through unchanged. */
  lemma StripNoFence(text: string)
    requires NoBacktick(text)
    ensures StripFences(text) == text
  {
    NoBacktickNoFence(text, "```json");
    NoBacktickNoFence(text, "```");
  }

  /**
   * The reply text handed to `JSON.parse`, or None when the call failed or produced no text:
   * an empty result also fails, since `JSON.parse("")` throws.
   */
  function ParseReply(raw: Option<string>, parse: string -> Option<Parsed>): Option<Parsed> {
    match raw
    case None => None
    case Some(t) =>
      var stripped := StripFences(t);
      if stripped == "" then None else parse(stripped)
  }

  /** A reply fenced as a json block is parsed from the body alone; an empty body fails. */
  lemma ParseFencedReply(body: string, parse: string -> Option<Parsed>)
    requires NoBacktick(body)
    ensures ParseReply(Some("```json" + body + "```"), parse) == if body == "" then None else parse(body)
  {
    StripJsonFence(body);
  }

  /** A reply without backticks is parsed as it is; an empty one fails. */
  lemma ParsePlainReply(text: string, parse: string -> Option<Parsed>)
    requires NoBacktick(text)
    ensures ParseReply(Some(text), parse) == if text == "" then None else parse(text)
  {
    StripNoFence(text);
  }
}

=== FILE: repository.dfy ===
/**
 * The idea store as a value: the history (newest first), the favourites (in the order they
 * were starred) and which history entry the current idea is. Each function here is one
 * step of the page's state; the class in module App performs the same steps in place.
 * The lemmas show that the steps keep the store consistent: ids unique in the history, at
 * most one favourite per id, and each history entry's flag equal to its membership among
 * the favourites.
 */
module Repository {
  import opened Wrappers
  import opened Ideas

  /**
   * `current` is the position in `history` of the object `currentIdea` refers to; a flag
   * set through `currentIdea` is therefore set on that history entry.
   */
  datatype Repo = Repo(history: seq<Idea>, favorites: seq<Idea>, current: Option<nat>)

  /** Which list a star was clicked in: `toggleFavorite('current')` or `toggleFavorite('history', id)`. */
  datatype Target = CurrentTarget | HistoryTarget

  predicate WellFormed(r: Repo) {
    r.current.Some? ==> r.current.value < |r.history|
  }

  /** The history with entry `k`'s favourite flag set to `b`. */
  function SetFlag(h: seq<Idea>, k: nat, b: bool): (h': seq<Idea>)
    requires k < |h|
    ensures SameIds(h', h)
    ensures h'[k].isFavorite == b
    ensures forall i :: 0 <= i < |h| && i != k ==> h'[i] == h[i]
  {
    h[k := h[k].(isFavorite := b)]
  }

  /** The step of `generateIdea` after a successful parse: the new idea becomes the head. */
  function Record(r: Repo, x: Idea): Repo {
    Repo([x] + r.history, r.favorites, Some(0))
  }

  lemma RecordEffect(r: Repo, x: Idea)
    ensures var r' := Record(r, x);
      && |r'.history| == |r.history| + 1
      && r'.history[0] == x
      && r'.history[1..] == r.history
      && r'.favorites == r.favorites
      && r'.current == Some(0) && WellFormed(r')
  {
  }

  /**
   * `toggleFavorite('current')`: decided by whether a favourite with the current idea's id
   * exists, not by the flag. If one does, all such favourites go and the flag is cleared;
   * otherwise the flag is set and one copy is appended.
   */
  function ToggleCurrent(r: Repo): (r': Repo)
    requires WellFormed(r) && r.current.Some?
    ensures WellFormed(r') && r'.current == r.current && SameIds(r'.history, r.history)
    ensures var k := r.current.value; var id := r.history[k].id;
      && (forall i :: 0 <= i < |r.history| && i != k ==> r'.history[i] == r.history[i])
      && r'.history[k] == r.history[k].(isFavorite := !HasId(r.favorites, id))
      && (HasId(r.favorites, id) ==> r'.favorites == RemoveId(r.favorites, id))
      && (!HasId(r.favorites, id) ==> r'.favorites == r.favorites + [r'.history[k]])
  {
    var k := r.current.value;
    var cur := r.history[k];
    if FirstIndex(r.favorites, cur.id).Some? then
      Repo(SetFlag(r.history, k, false), RemoveId(r.favorites, cur.id), r.current)
    else
      var h := SetFlag(r.history, k, true);
      Repo(h, r.favorites + [h[k]], r.current)
  }

  /**
   * `toggleFavorite('history', id)`: decided by the flag of the first history entry with
   * that id. An absent id changes nothing. Otherwise the flag flips; a set flag appends one
   * copy of the entry, a cleared one removes every favourite with that id.
   */
  function ToggleHistory(r: Repo, id: int): (r': Repo)
    requires WellFormed(r)
    ensures WellFormed(r') && |r'.history| == |r.history|
  {
    match FirstIndex(r.history, id)
    case None => r
    case Some(k) =>
      var h := SetFlag(r.history, k, !r.history[k].isFavorite);
      var favorites := if h[k].isFavorite then r.favorites + [h[k]] else RemoveId(r.favorites, id);
      Repo(h, favorites, r.current)
  }

  /** What one click on a history star does (see ToggleHistory). */
  lemma ToggleHistoryEffect(r: Repo, id: int)
    requires WellFormed(r)
    ensures var r' := ToggleHistory(r, id);
      && r'.current == r.current && SameIds(r'.history, r.history)
      && (!HasId(r.history, id) ==> r' == r)
      && (HasId(r.history, id) ==>
        var k := FirstIndex(r.history, id).value;
        var x := r.history[k].(isFavorite := !r.history[k].isFavorite);
        && (forall i :: 0 <= i < |r.history| && i != k ==> r'.history[i] == r.history[i])
        && r'.history[k] == x
        && (x.isFavorite ==> r'.favorites == r.favorites + [x])
        && (!x.isFavorite ==> r'.favorites == RemoveId(r.favorites, id)))
  {
  }

  /**
   * `toggleFavorite(type, id)`: the current idea when asked for and there is one; else the
   * history entry when `id` is truthy (present and non-zero); else nothing.
   */
  function Toggle(r: Repo, target: Target, id: Option<int>): (r': Repo)
    requires WellFormed(r)
    ensures WellFormed(r')
  {
    if target == CurrentTarget && r.current.Some? then ToggleCurrent(r)
    else if id.Some? && id.value != 0 then ToggleHistory(r, id.value)
    else r
  }

  /** Entry `i` is one whose flag `removeFavorite(id)` clears: the first with that id, or the current idea if it has that id. */
  predicate ClearedBy(r: Repo, id: int, i: nat) {
    (FirstIndex(r.history, id) == Some(i)) || (r.current == Some(i) && i < |r.history| && r.history[i].id == id)
  }

  /**
   * `removeFavorite(id)`: every favourite with that id goes, the rest keep their order; the
   * history keeps its length and order, and only the flags of the first entry with that id
   * and of the current idea (if it has that id) are cleared.
   */
  function RemoveFavorite(r: Repo, id: int): (r': Repo)
    requires WellFormed(r)
    ensures WellFormed(r') && r'.current == r.current && SameIds(r'.history, r.history)
    ensures r'.favorites == RemoveId(r.favorites, id) && !HasId(r'.favorites, id)
    ensures forall i :: 0 <= i < |r.history| ==>
      r'.history[i] == if ClearedBy(r, id, i) then r.history[i].(isFavorite := false) else r.history[i]
  {
    var h := match FirstIndex(r.history, id)
      case None => r.history
      case Some(k) => SetFlag(r.history, k, false);
    var h' := if r.current.Some? && h[r.current.value].id == id then SetFlag(h, r.current.value, false) else h;
    Repo(h', RemoveId(r.favorites, id), r.current)
  }

  // ---------------------------------------------------------------------------
  // Consistency

  /** Each history entry is starred exactly when a favourite with its id exists. */
  predicate FlagsAgree(r: Repo) {
    forall i :: 0 <= i < |r.history| ==> (r.history[i].isFavorite <==> HasId(r.favorites, r.history[i].id))
  }

  /** Every favourite was copied from an idea still in the history. */
  predicate FavoritesFromHistory(r: Repo) {
    forall j :: 0 <= j < |r.favorites| ==> HasId(r.history, r.favorites[j].id)
  }

  predicate Consistent(r: Repo) {
    WellFormed(r) && UniqueIds(r.history) && UniqueIds(r.favorites) && FlagsAgree(r) && FavoritesFromHistory(r)
  }

  /** A consistent store has at most one favourite per id. */
  lemma ConsistentAtMostOneFavorite(r: Repo, id: int)
    requires Consistent(r)
    ensures CountId(r.favorites, id) <= 1
  {
    UniqueCountAtMostOne(r.favorites, id);
  }

  /** The empty store (after `clearHistory`, or with nothing saved) is consistent. */
  lemma EmptyConsistent()
    ensures Consistent(Repo([], [], None))
  {
  }

  /** Recording an idea under a fresh id keeps the store consistent. */
  lemma RecordKeepsConsistent(r: Repo, x: Idea)
    requires Consistent(r) && !HasId(r.history, x.id) && !x.isFavorite
    ensures Consistent(Record(r, x))
  {
    var r' := Record(r, x);
    assert !HasId(r.favorites, x.id);
    HasIdAppend([x], r.history, x.id);
    forall j | 0 <= j < |r'.favorites| ensures HasId(r'.history, r'.favorites[j].id) {
      HasIdAppend([x], r.history, r'.favorites[j].id);
    }
    forall i | 0 <= i < |r'.history| ensures (r'.history[i].isFavorite <==> HasId(r'.favorites, r'.history[i].id)) {
      if i > 0 { assert r'.history[i] == r.history[i - 1]; }
    }
  }

  /** The favourites after adding one copy of entry `x` whose id was not yet among them. */
  lemma AppendFavoriteKeepsConsistent(r: Repo, h: seq<Idea>, k: nat)
    requires Consistent(r) && SameIds(h, r.history) && k < |h|
    requires !HasId(r.favorites, h[k].id) && h[k].isFavorite
    requires forall i :: 0 <= i < |h| && i != k ==> h[i] == r.history[i]
    ensures Consistent(Repo(h, r.favorites + [h[k]], r.current))
  {
    var id := h[k].id;
    var r' := Repo(h, r.favorites + [h[k]], r.current);
    SameIdsFacts(h, r.history);
    forall o ensures HasId(r'.favorites, o) <==> HasId(r.favorites, o) || o == id {
      HasIdAppend(r.favorites, [h[k]], o);
      assert HasId([h[k]], o) <==> o == id by { if o == id { assert [h[k]][0].id == o; } }
    }
    forall i | 0 <= i < |h| && i != k ensures h[i].id != id {
      assert r.history[i].id != r.history[k].id;
    }
    assert UniqueIds(r'.favorites) by {
      forall a, b | 0 <= a < b < |r'.favorites| ensures r'.favorites[a].id != r'.favorites[b].id {
        if b == |r.favorites| {
          assert r'.favorites[a] == r.favorites[a];
        } else {
          assert r'.favorites[a] == r.favorites[a] && r'.favorites[b] == r.favorites[b];
        }
      }
    }
    assert FavoritesFromHistory(r') by {
      forall j | 0 <= j < |r'.favorites| ensures HasId(h, r'.favorites[j].id) {
        if j == |r.favorites| { assert h[k].id == r'.favorites[j].id; }
        else { assert r'.favorites[j] == r.favorites[j]; }
      }
    }
  }

  /** The favourites after removing every copy of entry `k`'s id, whose flag is now clear. */
  lemma DropFavoriteKeepsConsistent(r: Repo, h: seq<Idea>, k: nat)
    requires Consistent(r) && SameIds(h, r.history) && k < |h| && !h[k].isFavorite
    requires forall i :: 0 <= i < |h| && i != k ==> h[i] == r.history[i]
    ensures Consistent(Repo(h, RemoveId(r.favorites, h[k].id), r.current))
  {
    var id := h[k].id;
    var favs := RemoveId(r.favorites, id);
    var r' := Repo(h, favs, r.current);
    SameIdsFacts(h, r.history);
    RemoveIdUnique(r.favorites, id);
    forall o ensures HasId(favs, o) <==> o != id && HasId(r.favorites, o) {
      HasIdRemove(r.favorites, id, o);
    }
    forall i | 0 <= i < |h| && i != k ensures h[i].id != id {
      assert r.history[i].id != r.history[k].id;
    }
    assert FavoritesFromHistory(r') by {
      forall j | 0 <= j < |favs| ensures HasId(h, favs[j].id) {
        assert favs[j] in r.favorites;
        var m :| 0 <= m < |r.favorites| && r.favorites[m] == favs[j];
        assert HasId(r.history, r.favorites[m].id);
      }
    }
  }

  /** Toggling a history entry keeps the store consistent. */
  lemma ToggleHistoryKeepsConsistent(r: Repo, id: int)
    requires Consistent(r)
    ensures Consistent(ToggleHistory(r, id))
  {
    ToggleHistoryEffect(r, id);
    var f := FirstIndex(r.history, id);
    if f.Some? {
      var k := f.value;
      var r' := ToggleHistory(r, id);
      if r'.history[k].isFavorite {
        assert !HasId(r.favorites, id);
        AppendFavoriteKeepsConsistent(r, r'.history, k);
      } else {
        DropFavoriteKeepsConsistent(r, r'.history, k);
      }
    }
  }

  /** Toggling the current idea keeps the store consistent. */
  lemma ToggleCurrentKeepsConsistent(r: Repo)
    requires Consistent(r) && r.current.Some?
    ensures Consistent(ToggleCurrent(r))
  {
    var k := r.current.value;
    var r' := ToggleCurrent(r);
    if r'.history[k].isFavorite {
      AppendFavoriteKeepsConsistent(r, r'.history, k);
    } else {
      DropFavoriteKeepsConsistent(r, r'.history, k);
    }
  }

  lemma ToggleKeepsConsistent(r: Repo, target: Target, id: Option<int>)
    requires Consistent(r)
    ensures Consistent(Toggle(r, target, id))
  {
    if target == CurrentTarget && r.current.Some? {
      ToggleCurrentKeepsConsistent(r);
    } else if id.Some? && id.value != 0 {
      ToggleHistoryKeepsConsistent(r, id.value);
    }
  }

  /** Removing a favourite keeps the store consistent. */
  lemma RemoveFavoriteKeepsConsistent(r: Repo, id: int)
    requires Consistent(r)
    ensures Consistent(RemoveFavorite(r, id))
  {
    var r' := RemoveFavorite(r, id);
    var f := FirstIndex(r.history, id);
    if f.None? {
      assert r'.history == r.history by {
        forall i | 0 <= i < |r.history| ensures r'.history[i] == r.history[i] {
          assert !ClearedBy(r, id, i);
        }
      }
      assert !HasId(r.favorites, id);
      RemoveAbsentId(r.favorites, id);
    } else {
      var k := f.value;
      forall i | 0 <= i < |r.history| ensures ClearedBy(r, id, i) <==> i == k {
      }
      DropFavoriteKeepsConsistent(r, r'.history, k);
    }
  }

  // ---------------------------------------------------------------------------
  // Sequences of steps

  /** One user action on the favourites. */
  datatype Action = ToggleAction(target: Target, id: Option<int>) | RemoveAction(removedId: int)

  function Apply(r: Repo, a: Action): (r': Repo)
    requires WellFormed(r)
    ensures WellFormed(r')
  {
    match a
    case ToggleAction(target, id) => Toggle(r, target, id)
    case RemoveAction(id) => RemoveFavorite(r, id)
  }

  function ApplyAll(r: Repo, actions: seq<Action>): (r': Repo)
    requires WellFormed(r)
    ensures WellFormed(r')
    decreases |actions|
  {
    if actions == [] then r else ApplyAll(Apply(r, actions[0]), actions[1..])
  }

  /**
   * Any sequence of toggles and removals from a consistent store leaves it consistent:
   * in particular there is never more than one favourite per id.
   */
  lemma {:induction false} ApplyAllKeepsConsistent(r: Repo, actions: seq<Action>)
    requires Consistent(r)
    ensures Consistent(ApplyAll(r, actions))
    ensures forall id :: CountId(ApplyAll(r, actions).favorites, id) <= 1
    decreases |actions|
  {
    if actions != [] {
      match actions[0] {
        case ToggleAction(target, id) => ToggleKeepsConsistent(r, target, id);
        case RemoveAction(id) => RemoveFavoriteKeepsConsistent(r, id);
      }
      ApplyAllKeepsConsistent(Apply(r, actions[0]), actions[1..]);
    }
    forall id ensures CountId(ApplyAll(r, actions).favorites, id) <= 1 {
      ConsistentAtMostOneFavorite(ApplyAll(r, actions), id);
    }
  }

  /** In a consistent store, a history entry's copies among the favourites number 1 if starred, else 0. */
  lemma FavoriteCountMatchesFlag(r: Repo, k: nat)
    requires Consistent(r) && k < |r.history|
    ensures CountId(r.favorites, r.history[k].id) == (if r.history[k].isFavorite then 1 else 0)
  {
    UniqueCountAtMostOne(r.favorites, r.history[k].id);
    CountIdZero(r.favorites, r.history[k].id);
  }

  /**
   * From an entry that is not a favourite and has no copy among the favourites, toggling
   * the current idea twice restores the store exactly.
   */
  lemma ToggleCurrentTwice(r: Repo)
    requires WellFormed(r) && r.current.Some?
    requires !r.history[r.current.value].isFavorite && !HasId(r.favorites, r.history[r.current.value].id)
    ensures ToggleCurrent(ToggleCurrent(r)) == r
  {
    var k := r.current.value;
    var id := r.history[k].id;
    var r1 := ToggleCurrent(r);
    var r2 := ToggleCurrent(r1);
    HasIdAppend(r.favorites, [r1.history[k]], id);
    assert [r1.history[k]][0].id == id;
    RemoveIdAppend(r.favorites, [r1.history[k]], id);
    RemoveAbsentId(r.favorites, id);
    assert RemoveId([r1.history[k]], id) == [];
    assert r2.history == r.history;
  }

  /** The same for a history entry: two clicks on its star restore the store. */
  lemma ToggleHistoryTwice(r: Repo, id: int)
    requires Consistent(r) && HasId(r.history, id)
    requires !r.history[FirstIndex(r.history, id).value].isFavorite
    ensures ToggleHistory(ToggleHistory(r, id), id) == r
  {
    var k := FirstIndex(r.history, id).value;
    var r1 := ToggleHistory(r, id);
    ToggleHistoryEffect(r, id);
    ToggleHistoryEffect(r1, id);
    SameIdsFacts(r1.history, r.history);
    assert !HasId(r.favorites, id);
    var r2 := ToggleHistory(r1, id);
    RemoveIdAppend(r.favorites, [r1.history[k]], id);
    RemoveAbsentId(r.favorites, id);
    assert RemoveId([r1.history[k]], id) == [];
    assert r2.history == r.history;
  }

  /** The store after `n` clicks on the star of the history entry with `id`. */
  function Clicks(r: Repo, id: int, n: nat): (r': Repo)
    requires WellFormed(r)
    ensures WellFormed(r') && |r'.history| == |r.history|
    decreases n
  {
    if n == 0 then r else Clicks(ToggleHistory(r, id), id, n - 1)
  }

  /** `n` is odd, by counting down to zero. */
  predicate Odd(n: nat)
    decreases n
  {
    n != 0 && !Odd(n - 1)
  }

  /**
   * After `n` clicks on a history star, `find` still lands on the same entry, and its
   * flag is the starting flag flipped exactly when `n` is odd.
   */
  lemma {:induction false} ClickParity(r: Repo, id: int, n: nat, k: nat)
    requires WellFormed(r) && FirstIndex(r.history, id) == Some(k)
    ensures var r' := Clicks(r, id, n);
      && FirstIndex(r'.history, id) == Some(k)
      && r'.history[k].isFavorite == (r.history[k].isFavorite != Odd(n))
    decreases n
  {
    if n > 0 {
      var r1 := ToggleHistory(r, id);
      ToggleHistoryEffect(r, id);
      SameIdsFirstIndex(r1.history, r.history, id);
      ClickParity(r1, id, n - 1, k);
    }
  }

  /**
   * In a consistent store, after `n` clicks the store is still consistent and the id is
   * among the favourites exactly when the entry's starting flag, flipped when `n` is odd,
   * is set.
   */
  lemma {:induction false} ClickParityFavorites(r: Repo, id: int, n: nat, k: nat)
    requires Consistent(r) && FirstIndex(r.history, id) == Some(k)
    ensures var r' := Clicks(r, id, n);
      && Consistent(r')
      && (HasId(r'.favorites, id) <==> (r.history[k].isFavorite != Odd(n)))
    decreases n
  {
    ClickParity(r, id, n, k);
    ClicksKeepConsistent(r, id, n);
  }

  /** Any number of clicks on a history star keeps the store consistent. */
  lemma {:induction false} ClicksKeepConsistent(r: Repo, id: int, n: nat)
    requires Consistent(r)
    ensures Consistent(Clicks(r, id, n))
    decreases n
  {
    if n > 0 {
      ToggleHistoryKeepsConsistent(r, id);
      ClicksKeepConsistent(ToggleHistory(r, id), id, n - 1);
    }
  }
}

=== FILE: text.dfy ===
/**
 * The JavaScript string operations the idea store relies on, as functions on `string`
 * (`seq<char>`): `indexOf`/`includes`, `replace` with a string pattern, `toLowerCase`,
 * `trim`, `Array.prototype.join`, `String(n)` for integers, and `parseInt`.
 */
module Text {
  import opened Wrappers

  // ---------------------------------------------------------------------------
  // Substring search

  /** `pat` occurs in `s` starting at position `i`. */
  predicate OccursAt(s: string, pat: string, i: nat) {
    i + |pat| <= |s| && s[i..i + |pat|] == pat
  }

  /** The first position at or after `from` where `pat` occurs, if any. */
  function IndexFrom(s: string, pat: string, from: nat): (r: Option<nat>)
    requires from <= |s|
    ensures r.Some? ==> from <= r.value && OccursAt(s, pat, r.value)
    ensures r.Some? ==> forall j: nat :: from <= j < r.value ==> !OccursAt(s, pat, j)
    ensures r.None? ==> forall j: nat :: from <= j <= |s| ==> !OccursAt(s, pat, j)
    decreases |s| - from
  {
    if OccursAt(s, pat, from) then Some(from)
    else if from == |s| then None
    else IndexFrom(s, pat, from + 1)
  }

  /** `s.indexOf(pat)`: the first position at which `pat` occurs, or None for -1. */
  function IndexOf(s: string, pat: string): Option<nat> {
    IndexFrom(s, pat, 0)
  }

  /** `s.includes(t)`. */
  predicate Contains(s: string, t: string) {
    IndexOf(s, t).Some?
  }

  lemma ContainsEmpty(s: string)
    ensures Contains(s, "")
  {
    assert OccursAt(s, "", 0);
  }

  /** Every text includes itself. */
  lemma ContainsSelf(s: string)
    ensures Contains(s, s)
  {
    assert OccursAt(s, s, 0);
  }

  /** Text added after `b` keeps its occurrences. */
  lemma ContainsBefore(b: string, c: string, t: string)
    requires Contains(b, t)
    ensures Contains(b + c, t)
  {
    var j := IndexOf(b, t).value;
    assert (b + c)[j..j + |t|] == b[j..j + |t|];
    assert OccursAt(b + c, t, j);
  }

  /** Text added before `b` keeps its occurrences, shifted. */
  lemma ContainsAfter(a: string, b: string, t: string)
    requires Contains(b, t)
    ensures Contains(a + b, t)
  {
    var j := IndexOf(b, t).value;
    assert (a + b)[|a| + j..|a| + j + |t|] == b[j..j + |t|];
    assert OccursAt(a + b, t, |a| + j);
  }

  /**
   * `s.replace(pat, rep)` with a string (not a regular expression) pattern: only the first
   * occurrence is replaced; the replacement strings used here hold no `$` patterns.
   */
  function ReplaceFirst(s: string, pat: string, rep: string): string {
    match IndexOf(s, pat)
    case None => s
    case Some(i) => s[..i] + rep + s[i + |pat|..]
  }

  // ---------------------------------------------------------------------------
  // Case mapping

  /** `toLowerCase` on one character; only the ASCII letters are mapped. */
  function LowerChar(c: char): char {
    if 'A' <= c <= 'Z' then (c as int - 'A' as int + 'a' as int) as char else c
  }

  function Lower(s: string): string {
    if s == [] then [] else [LowerChar(s[0])] + Lower(s[1..])
  }

  lemma {:induction false} LowerLength(s: string)
    ensures |Lower(s)| == |s|
  {
    if s != [] { LowerLength(s[1..]); }
  }

  lemma {:induction false} LowerAppend(a: string, b: string)
    ensures Lower(a + b) == Lower(a) + Lower(b)
  {
    if a == [] {
      assert a + b == b;
    } else {
      assert (a + b)[1..] == a[1..] + b;
      LowerAppend(a[1..], b);
    }
  }

  /** Lower-casing twice is lower-casing once. */
  lemma {:induction false} LowerIdempotent(s: string)
    ensures Lower(Lower(s)) == Lower(s)
  {
    if s != [] {
      LowerIdempotent(s[1..]);
      assert Lower(s)[1..] == Lower(s[1..]);
    }
  }

  lemma {:induction false} LowerKeepsChar(s: string, c: char)
    requires LowerChar(c) == c
    ensures c in s ==> c in Lower(s)
  {
    if s != [] && c in s {
      if s[0] != c {
        assert c in s[1..];
        LowerKeepsChar(s[1..], c);
      }
    }
  }

  // ---------------------------------------------------------------------------
  // Whitespace trimming

  /** ECMAScript WhiteSpace and LineTerminator code points: what `trim` removes. */
  predicate IsSpace(c: char) {
    c == '\t' || c == '\n' || c == '\U{000B}' || c == '\U{000C}' || c == '\r' || c == ' ' ||
    c == '\U{00A0}' || c == '\U{1680}' || ('\U{2000}' <= c <= '\U{200A}') ||
    c == '\U{2028}' || c == '\U{2029}' || c == '\U{202F}' || c == '\U{205F}' ||
    c == '\U{3000}' || c == '\U{FEFF}'
  }

  /** The leading whitespace of `s` removed (`trimStart`). */
  function TrimStart(s: string): (r: string)
    ensures |r| <= |s| && r == s[|s| - |r|..]
    ensures r == [] || !IsSpace(r[0])
    ensures forall k :: 0 <= k < |s| - |r| ==> IsSpace(s[k])
  {
    if s != [] && IsSpace(s[0]) then TrimStart(s[1..]) else s
  }

  /** The trailing whitespace of `s` removed (`trimEnd`). */
  function TrimEnd(s: string): (r: string)
    ensures |r| <= |s| && r == s[..|r|]
    ensures r == [] || !IsSpace(r[|r| - 1])
    ensures forall k :: |r| <= k < |s| ==> IsSpace(s[k])
  {
    if s != [] && IsSpace(s[|s| - 1]) then TrimEnd(s[..|s| - 1]) else s
  }

  /** `s` is `r` placed at position `i` with only whitespace before and after it. */
  predicate TrimmedAt(s: string, r: string, i: int) {
    0 <= i <= |s| - |r| && s[i..i + |r|] == r &&
    (forall k :: 0 <= k < i ==> IsSpace(s[k])) &&
    (forall k :: i + |r| <= k < |s| ==> IsSpace(s[k]))
  }

  /** `s.trim()`. */
  function Trim(s: string): string {
    TrimEnd(TrimStart(s))
  }

  /** `Trim(s)` is `s` with the surrounding whitespace removed, and no more. */
  lemma TrimFacts(s: string)
    ensures var r := Trim(s);
      && (r == [] || (!IsSpace(r[0]) && !IsSpace(r[|r| - 1])))
      && exists i :: TrimmedAt(s, r, i)
  {
    var t := TrimStart(s);
    var r := TrimEnd(t);
    var i := |s| - |t|;
    assert s[i..i + |r|] == r;
    assert TrimmedAt(s, r, i);
  }

  // ---------------------------------------------------------------------------
  // Joining

  /** `parts.join(sep)`. */
  function Join(parts: seq<string>, sep: string): string {
    if parts == [] then ""
    else if |parts| == 1 then parts[0]
    else parts[0] + sep + Join(parts[1..], sep)
  }

  /** Each part appears as an infix of the joined text. */
  lemma {:induction false} JoinHasPart(parts: seq<string>, sep: string, k: nat)
    requires k < |parts|
    ensures exists a, c :: Join(parts, sep) == a + parts[k] + c
  {
    if |parts| == 1 {
      assert Join(parts, sep) == "" + parts[0] + "";
    } else if k == 0 {
      assert Join(parts, sep) == "" + parts[0] + (sep + Join(parts[1..], sep));
    } else {
      JoinHasPart(parts[1..], sep, k - 1);
      var a, c :| Join(parts[1..], sep) == a + parts[1..][k - 1] + c;
      assert Join(parts, sep) == (parts[0] + sep + a) + parts[k] + c;
    }
  }

  /** A character found neither in the separator nor in any part is not in the joined text. */
  lemma {:induction false} JoinAvoids(parts: seq<string>, sep: string, c: char)
    requires c !in sep
    requires forall i :: 0 <= i < |parts| ==> c !in parts[i]
    ensures c !in Join(parts, sep)
  {
    if |parts| > 1 {
      assert forall i :: 0 <= i < |parts[1..]| ==> parts[1..][i] == parts[i + 1];
      JoinAvoids(parts[1..], sep, c);
    }
  }

  // ---------------------------------------------------------------------------
  // Integers and their decimal text

  /** The value of a digit character in radices up to 36, or 36 for a non-digit. */
  function DigitValue(c: char): nat {
    if '0' <= c <= '9' then c as int - '0' as int
    else if 'a' <= c <= 'z' then c as int - 'a' as int + 10
    else if 'A' <= c <= 'Z' then c as int - 'A' as int + 10
    else 36
  }

  predicate IsDigitIn(c: char, radix: nat) {
    DigitValue(c) < radix
  }

  /** The length of the longest prefix of `s` made of digits of `radix`. */
  function DigitPrefix(s: string, radix: nat): (n: nat)
    ensures n <= |s|
    ensures forall i :: 0 <= i < n ==> IsDigitIn(s[i], radix)
    ensures n == |s| || !IsDigitIn(s[n], radix)
  {
    if s != [] && IsDigitIn(s[0], radix) then 1 + DigitPrefix(s[1..], radix) else 0
  }

  /** The number a digit string denotes in `radix`, most significant digit first. */
  function DigitsValue(ds: string, radix: nat): nat {
    if ds == [] then 0 else DigitsValue(ds[..|ds| - 1], radix) * radix + DigitValue(ds[|ds| - 1])
  }

  function DigitChar(d: nat): char
    requires d < 10
  {
    ('0' as int + d) as char
  }

  /** `String(n)` for a non-negative integer: decimal digits that denote `n`. */
  function NatToString(n: nat): (s: string)
    ensures |s| >= 1
    ensures forall i :: 0 <= i < |s| ==> '0' <= s[i] <= '9'
    ensures DigitsValue(s, 10) == n
  {
    if n < 10 then [DigitChar(n)]
    else
      var s := NatToString(n / 10) + [DigitChar(n % 10)];
      assert s[..|s| - 1] == NatToString(n / 10);
      s
  }

  /** `String(n)` for an integer. */
  function IntToString(n: int): string {
    if n < 0 then "-" + NatToString(-n) else NatToString(n)
  }

  /**
   * `parseInt(s)` with no radix argument: leading whitespace skipped, an optional sign,
   * a `0x`/`0X` prefix selecting radix 16, then the longest run of digits. None is NaN.
   */
  function ParseInt(s: string): Option<int> {
    ParseSigned(TrimStart(s))
  }

  /** `parseInt` after the leading whitespace: an optional sign, then the magnitude. */
  function ParseSigned(t: string): Option<int> {
    if |t| > 0 && t[0] == '-' then
      match ParseMagnitude(t[1..])
      case None => None
      case Some(m) => Some(-(m as int))
    else if |t| > 0 && t[0] == '+' then
      match ParseMagnitude(t[1..])
      case None => None
      case Some(m) => Some(m as int)
    else
      match ParseMagnitude(t)
      case None => None
      case Some(m) => Some(m as int)
  }

  /** The unsigned part: a `0x`/`0X` prefix selects radix 16; at least one digit is needed. */
  function ParseMagnitude(u: string): Option<nat> {
    var hex := |u| >= 2 && u[0] == '0' && (u[1] == 'x' || u[1] == 'X');
    var radix := if hex then 16 else 10;
    var v := if hex then u[2..] else u;
    var n := DigitPrefix(v, radix);
    if n == 0 then None else Some(DigitsValue(v[..n], radix))
  }

  lemma DigitsParse(d: string)
    requires |d| >= 1
    requires forall i :: 0 <= i < |d| ==> '0' <= d[i] <= '9'
    ensures DigitPrefix(d, 10) == |d|
    ensures !(|d| >= 2 && d[0] == '0' && (d[1] == 'x' || d[1] == 'X'))
  {
    var n := DigitPrefix(d, 10);
    if n < |d| {
      assert IsDigitIn(d[n], 10);
    }
  }

  /** A decimal digit string is read as the number it denotes. */
  lemma MagnitudeOfDigits(d: string)
    requires |d| >= 1
    requires forall i :: 0 <= i < |d| ==> '0' <= d[i] <= '9'
    ensures ParseMagnitude(d) == Some(DigitsValue(d, 10))
  {
    DigitsParse(d);
    assert d[..|d|] == d;
  }

  /** A text that does not start with whitespace is its own `trimStart`. */
  lemma TrimStartUnspaced(s: string)
    requires s != [] && !IsSpace(s[0])
    ensures TrimStart(s) == s
  {
  }

  /** An unsigned decimal digit string parses to the number it denotes. */
  lemma ParseSignedDigits(d: string)
    requires |d| >= 1
    requires forall i :: 0 <= i < |d| ==> '0' <= d[i] <= '9'
    ensures ParseSigned(d) == Some(DigitsValue(d, 10) as int)
  {
    MagnitudeOfDigits(d);
  }

  /** A minus sign followed by a decimal digit string parses to the negated number. */
  lemma ParseSignedNegative(t: string)
    requires |t| >= 2 && t[0] == '-'
    requires forall i :: 1 <= i < |t| ==> '0' <= t[i] <= '9'
    ensures ParseSigned(t) == Some(-(DigitsValue(t[1..], 10) as int))
  {
    var d := t[1..];
    assert forall i :: 0 <= i < |d| ==> '0' <= d[i] <= '9';
    MagnitudeOfDigits(d);
  }

  /** `parseInt(String(n)) === n`: an integer's decimal text parses back to it. */
  lemma ParseIntOfIntToString(n: int)
    ensures ParseInt(IntToString(n)) == Some(n)
  {
    if n < 0 {
      var d := NatToString(-n);
      var s := IntToString(n);
      assert s == "-" + d && s[1..] == d;
      TrimStartUnspaced(s);
      ParseSignedNegative(s);
    } else {
      var d := NatToString(n);
      TrimStartUnspaced(d);
      ParseSignedDigits(d);
    }
  }
}

=== FILE: wrappers.dfy ===
/** The usual Some/None datatype, standing for JavaScript's `null`/`undefined` versus a value. */
module Wrappers {
  datatype Option<+T> = None | Some(value: T)
}
